=== FILE: README.md ===
# Attachment lifecycle model

A Dafny model of the attachment-lifecycle module of a desktop messenger
(`ts/types/MessageAttachment.ts`). The module keeps attachment payloads —
message attachments, quote thumbnails, contact avatars, link-preview images
and conversation avatars — as files under one attachments directory. It
provides:

- a once-only initialisation of that directory, which binds the read,
  absolute-path, delete and write operations to it;
- guarded wrappers around those four operations that fail until
  initialisation is done;
- cascading deletion: which files a message or a conversation owns, with the
  anti-spoofing exception for quote thumbnails marked `copied`;
- hydration of a message's previews and quote: when the first entry of a
  list is non-empty, only that entry is kept and hydrated;
- migration of inline attachment data into the store (`migrateDataToFileSystem`,
  `processNewAttachment`).

Files:

- `util.dfy` (`Util`): `Option`, `Result`, `byte`, `Present`, the
  JavaScript truthiness test for an optional string, and `JsLength`, a
  string's JavaScript `length`.
- `records.dfy` (`Records`): the records the code reads. Every `any`-typed
  field becomes an `Option`, and lodash `isEmpty` becomes an explicit
  all-fields-absent predicate.
- `blob_store.dfy` (`BlobStore`): the module state (`attachmentsPath` and the
  `internal*` bindings) as a `Store` value, `initializeAttachmentLogic`, and
  the guarded store operations. The files under the attachments directory
  are an abstract map from relative path to bytes.
- `cleanup.dfy` (`Cleanup`): the delete requests of a message and of a
  conversation, as ordered sequences labelled with their field and
  position. It also models running them against the store, batch by batch
  (one `Promise.all` per field, awaited in turn).
- `loaders.dfy` (`Loaders`): `loadPreviewData` and `loadQuoteData`.
- `migration.dfy` (`Migration`): `migrateDataToFileSystem` and
  `processNewAttachment`.

Parameters stand in for what the module receives from outside:

- the Electron user-data directory;
- the directory derivation `getPath`;
- the absolute-path getter;
- the name the writer generates for a new file;
- `loadData`;
- `replaceUnicodeV2`, `autoOrientJPEGAttachment` and
  `captureDimensionsAndScreenshot`;
- the files `deleteData` removes for a direct attachment (`dataPaths`).

Behaviour of the code that the model keeps:

- The four categories of a message's cleanup are not independent. The code
  awaits them one after another, so a rejected batch ends the cleanup and
  the later categories are never attempted
  (`Cleanup.DirectAttachmentFailureStopsCleanup`). The conversation cleanup
  likewise stops after a failed avatar delete.
- Initialisation rejects any user-data path whose JavaScript `length` is at most 10. That length counts UTF-16 code units, so a character outside the Basic Multilingual Plane counts twice (`Util.JsLength`).
- `loadQuoteData` returns `null` for a falsy quote. Here that result is `None`.
- Initialisation is guarded by the truthiness of `attachmentsPath`, while
  read, absolute-path, delete and write are guarded by the `internal*`
  bindings. The `Store` keeps both (`attachmentsPath`, `boundRoot`).
- `migrateDataToFileSystem` reports the missing-data error only for
  `undefined` data. `null` data fails the buffer test and gets the type
  error. `None` therefore stands for `undefined`, and `null` is a
  `NotBuffer` value.

## Model

| member | source | states |
|---|---|---|
| BlobStore.Startup | ts/types/MessageAttachment.ts:83-88 | at process start neither `attachmentsPath` nor the `internal*` bindings are set, and the files on disk are whatever is there |
| BlobStore.InitializeAttachmentLogic | ts/types/MessageAttachment.ts:91-105 | fails with the already-initialised error and keeps the state when `attachmentsPath` is set; otherwise fails on a user-data path of at most 10 UTF-16 code units; succeeds exactly when neither guard fires, then sets the root and the bindings to `getPath(userDataPath)` and leaves the files alone |
| BlobStore.InitializeOnlyOnce | ts/types/MessageAttachment.ts:93-100 | after a successful initialisation a second one fails whatever its argument, and the first root stays the one `getAttachmentPath` returns |
| BlobStore.GetAttachmentPath | ts/types/MessageAttachment.ts:107-112 | succeeds exactly when the root is set and non-empty, returns that root, and otherwise fails as not initialised |
| BlobStore.ReadAttachmentData | ts/types/MessageAttachment.ts:188-193 | fails as not initialised before initialisation; afterwards returns the stored contents of the path, or not-found when no file is there |
| BlobStore.GetAbsoluteAttachmentPath | ts/types/MessageAttachment.ts:195-200 | fails as not initialised before initialisation; afterwards delegates to the getter bound to the root, with an absent argument passed as `''` |
| BlobStore.AbsolutePathOfAbsentIsOfEmpty | ts/types/MessageAttachment.ts:199 | an absent relative path and the empty one resolve to the same result |
| BlobStore.DeleteOnDisk | ts/types/MessageAttachment.ts:202-207 | fails as not initialised and changes nothing before initialisation; afterwards the path holds no file and every other file is unchanged |
| BlobStore.DeleteIsIdempotent | ts/types/MessageAttachment.ts:202-207 | deleting twice equals deleting once, and deleting a path with no file succeeds without change |
| BlobStore.WriteNewAttachmentData | ts/types/MessageAttachment.ts:209-214 | fails as not initialised and changes nothing before initialisation; afterwards returns the generated name, stores the bytes there and adds exactly that one path, every other file keeping its contents |
| BlobStore.WriteThenRead | ts/types/MessageAttachment.ts:188-214 | with a fresh name, reading back the returned path gives the written bytes and every earlier file reads as before |
| BlobStore.OperationsFailBeforeInitialization | ts/types/MessageAttachment.ts:107-214 | at process start the root getter and all four store operations fail as not initialised, and delete and write leave the store as it was |
| Util.JsLength | ts/types/MessageAttachment.ts:97 | JavaScript's `length` of the user-data path: at least its character count and at most twice it, and equal to it exactly when every character lies in the Basic Multilingual Plane |
| BlobStore.LengthGuardCountsCodeUnits | ts/types/MessageAttachment.ts:97 | the length guard counts UTF-16 code units: a seven-character path made of a three-character prefix and four characters outside the Basic Multilingual Plane has length 11 and is accepted |
| BlobStore.OperationsDelegateAfterInitialization | ts/types/MessageAttachment.ts:100-104 | after initialisation from a path longer than 10 UTF-16 code units, every operation delegates: the absolute path resolves against `getPath(userDataPath)`, a read succeeds exactly for a stored path and returns its bytes, a delete succeeds and removes just that path, and a write returns the generated name and stores the bytes there |
| Cleanup.CollectFrom | ts/types/MessageAttachment.ts:39-80 | the requests of a field's list name exactly the entries the field's rule selects, each with its own target, in increasing list position |
| Cleanup.MessageDeleteRequests | ts/types/MessageAttachment.ts:31-80 | the requests are in field order (attachments, quote, contact, preview) and list order, and a request is present exactly when the reference ownership definition holds: every direct attachment; every quote thumbnail with a non-empty path not marked `copied`; every contact avatar image with a non-empty path; every preview image with a non-empty path |
| Cleanup.MessageDeleteRequestsAreExactly | ts/types/MessageAttachment.ts:37-80 | any list in source order that names exactly the owned files equals the message's request list, so absent or empty fields add nothing and no other file is named |
| Cleanup.CopiedThumbnailIsIgnored | ts/types/MessageAttachment.ts:48-53 | a quote thumbnail marked `copied` has no effect: the message's requests are the same as with that thumbnail removed |
| Cleanup.OwnedThumbnailIsDeleted | ts/types/MessageAttachment.ts:43-56 | with the store initialised, a quote thumbnail with a non-empty path that is not marked `copied` is gone after the cleanup |
| Cleanup.DeleteExternalMessageFiles | ts/types/MessageAttachment.ts:31-81 | initialised: all four batches run, and the files left are exactly the earlier ones minus those the requests name; uninitialised: nothing changes, and the call fails exactly when some request names a path to delete |
| Cleanup.DirectAttachmentFailureStopsCleanup | ts/types/MessageAttachment.ts:39-44 | when the direct-attachment batch fails, the cleanup fails after that one batch and the quote, contact and preview batches are never started |
| Cleanup.RunPlan | ts/types/MessageAttachment.ts:39-80 | batches awaited in turn: a success ran every batch; a failure happens only on an uninitialised store and ends with the first batch that names a path to delete, so the batches after it never start; uninitialised, the store is unchanged |
| Cleanup.RunPlanInitialized | ts/types/MessageAttachment.ts:39-80 | on an initialised store the run succeeds and removes exactly the files its requests name |
| Cleanup.RunPlanUninitialized | ts/types/MessageAttachment.ts:39-80 | on an uninitialised store the run fails exactly when some request names a path to delete |
| Cleanup.RunBatch | ts/types/MessageAttachment.ts:44-55 | every request of a `Promise.all` batch is issued; the batch fails exactly when some request fails; initialised, it removes exactly the files its requests name |
| Cleanup.RunRequest | ts/types/MessageAttachment.ts:40-52 | a path request is one `deleteOnDisk`; a direct attachment is one `deleteData`; initialised, each removes exactly its files; uninitialised, each fails when it names a path to delete |
| Cleanup.DeletePaths | ts/types/MessageAttachment.ts:40 | the assumed effect of `deleteData` for one direct attachment: its files deleted by `deleteOnDisk` one after the other, stopping at the first failure; initialised, exactly those files are removed; uninitialised, nothing changes and the call fails exactly when the list names a path to delete. The list of files is a parameter, since `deleteData` itself is not part of this model |
| Cleanup.ConversationDeleteRequests | ts/types/MessageAttachment.ts:240-257 | an absent conversation asks for nothing; otherwise at most two requests, the avatar before the profile avatar, each present exactly when that field has a non-empty path; the list is exactly the batches the conversation cleanup runs, concatenated |
| Cleanup.ConversationAvatarFirst | ts/types/MessageAttachment.ts:250-252 | on an uninitialised store, when the avatar has a non-empty path, the first batch of the conversation cleanup (the avatar delete) fails |
| Cleanup.DeleteExternalFilesOfConversation | ts/types/MessageAttachment.ts:240-257 | an absent conversation is a successful no-op; initialised, the files removed are exactly those the conversation's request list names, which are the present avatar and profile-avatar paths; uninitialised, nothing changes, the call fails exactly when a request names a path to delete, and the profile avatar is not attempted once the avatar delete fails |
| Loaders.LoadPreviewData | ts/types/MessageAttachment.ts:116-132 | at most one element; empty exactly for an absent or empty list or an empty first element; otherwise the first element, unchanged when it has no image and with only its image replaced by the loaded image when it has one |
| Loaders.LoadPreviewDataReadsOnlyTheFirst | ts/types/MessageAttachment.ts:121-131 | the elements after the first never affect the result |
| Loaders.HydrateQuotedAttachment | ts/types/MessageAttachment.ts:144-155 | the thumbnail is loaded exactly when it has a non-empty path; otherwise the entry is unchanged; other fields are kept |
| Loaders.LoadQuoteData | ts/types/MessageAttachment.ts:134-161 | an absent quote gives none; a quote with no attachments or an empty first one comes back unchanged; otherwise only `attachments` changes, to a one-element list holding the hydrated first attachment |
| Loaders.LoadQuoteDataReadsOnlyTheFirst | ts/types/MessageAttachment.ts:138-160 | after a non-empty first quoted attachment, the rest of the list never affects the result |
| Migration.MigrateDataToFileSystem | ts/types/MessageAttachment.ts:223-238 | absent data fails with the missing-data error, non-buffer data with the type error, both with the store unchanged (nothing written); a buffer is written and its generated path returned |
| Migration.MigrateThenRead | ts/types/MessageAttachment.ts:223-238 | with a fresh name, the migrated bytes read back from the returned path and every other file is unchanged |
| Migration.ProcessNewAttachment | ts/types/MessageAttachment.ts:163-186 | fails with the store unchanged when the re-oriented data is absent, not a buffer, or the store is uninitialised; otherwise writes the re-oriented bytes under the generated name, and the result has no inline data, `path` set to that name, `fileName` the normalised name (or `''` without one), `size` the re-oriented byte length, a digest absent exactly when orientation marked it stale or there was none (otherwise unchanged), content type, `isRaw` and `copied` kept, and width, height and screenshot path exactly those the capture step returns for the path-backed record without data (with the digest already dropped when stale) |
| Migration.ProcessedAttachmentReadsBack | ts/types/MessageAttachment.ts:173-185 | with a fresh name, reading the processed attachment's path gives the re-oriented bytes, and every earlier file reads as before |

## Left out

- The Electron call `remote.app.getPath('userData')` (line 92): the user-data directory is a parameter.
- The filesystem code behind `createReader`, `createWriterForNew`, `createDeleter`, `createAbsolutePathGetter` and `getPath` (`ts/attachments/attachments.ts`) is not part of this model. Files are an abstract map from relative path to bytes. The absolute-path getter and `getPath` are parameters.
- BlobStore.WriteNewAttachmentData: the generated name is a parameter. That it is fresh is an assumption of `BlobStore.WriteThenRead`, `Migration.MigrateThenRead` and `Migration.ProcessedAttachmentReadsBack`, not a proof. Whether the real writer could overwrite an existing file is not modelled.
- BlobStore.DeleteOnDisk: only the not-initialised failure is modelled. Genuine I/O errors (permission denied, device errors) are not, so initialised deletes always succeed.
- Cleanup.RunRequest: `deleteData` (`ts/types/attachments/migrations.ts`) is not part of this model. Its effect is the parameter `dataPaths`: the files it deletes, one at a time, through `deleteOnDisk`. Its own validation error for malformed attachments is not modelled.
- Cleanup.RunBatch: the requests of one `Promise.all` batch run one after the other, in list order. Their real interleaving is not modelled, and neither is which rejection is reported when several fail; in the model every failure is the not-initialised error.
- `loadData`, `replaceUnicodeV2`, `autoOrientJPEGAttachment` and `captureDimensionsAndScreenshot` are parameters assumed never to throw. Any files the capture step writes, such as screenshots, are not modelled.
- Migration.ProcessNewAttachment: the capture step is modelled as returning only width, height and screenshot path, which are written into the record. The source does not show that step. The claims about `data`, `path`, digest and the kept fields rest on this assumption; a capture step that rewrote other fields is not modelled.
- JavaScript dynamic typing is narrowed to the records in `records.dfy`:
  - `copied` is an optional boolean, so a truthy non-boolean value is not modelled;
  - `isEmpty` is "every modelled field absent";
  - list fields are arrays or absent, never other values.
- Cleanup.DeletePaths: what `deleteData` deletes for a direct attachment is the parameter `dataPaths`, not derived from the attachment.
- `loadAttachmentData` is an alias of `loadData` and is the `load` parameter.
- The FIXME comment block (lines 20-29) lists upgrade steps that are not code.

=== FILE: blob_store.dfy ===
/** The module-level state of the attachment code (`attachmentsPath` and the
    four `internal*` bindings) as an explicit value, the once-only
    initialisation, and the four guarded store operations. The file system
    below the attachments directory is an abstract map from relative paths to
    contents. */
module BlobStore {
  import opened Util

  datatype Error =
    | AlreadyInitialized    // 'attachmentsPath already initialized'
    | InvalidUserDataPath   // 'userDataPath cannot have length <= 10'
    | NotInitialized        // 'attachmentsPath not init' / 'attachment logic not initialized'
    | NotFound              // a read of a path that holds no file
    | MissingData           // 'attachment has no data in migrateDataToFileSystem'
    | NotArrayBuffer        // the TypeError of migrateDataToFileSystem

  type Disk = map<string, seq<byte>>

  /** `attachmentsPath` is the value tested by the initialisation guard and by
      `getAttachmentPath`; `boundRoot` is the root the four `internal*`
      functions were created for (they are always assigned together). */
  datatype Store = Store(
    attachmentsPath: Option<string>,
    boundRoot: Option<string>,
    disk: Disk)

  /** The result of an operation that may change the store. */
  datatype Step<+T> = Step(result: Result<T, Error>, store: Store)

  /** The state at process start: nothing initialised, whatever is on disk. */
  function Startup(disk: Disk): (st: Store)
    ensures !Initialized(st) && !Bound(st) && st.disk == disk
  {
    Store(None, None, disk)
  }

  /** The guard of `initializeAttachmentLogic` and `getAttachmentPath`. */
  predicate Initialized(st: Store) {
    Present(st.attachmentsPath)
  }

  /** The guard of the four delegating operations. */
  predicate Bound(st: Store) {
    st.boundRoot.Some?
  }

  /** `initializeAttachmentLogic`, with the Electron user-data directory and
      the attachments-directory derivation `getPath` as parameters. */
  function InitializeAttachmentLogic(st: Store, userDataPath: string, getPath: string -> string): (r: Step<()>)
    ensures r.result.Failure? ==> r.store == st
    ensures Initialized(st) ==> r.result == Failure(AlreadyInitialized)
    ensures !Initialized(st) && JsLength(userDataPath) <= 10 ==> r.result == Failure(InvalidUserDataPath)
    ensures r.result.Success? <==> !Initialized(st) && JsLength(userDataPath) > 10
    ensures r.result.Success? ==>
      && r.store.attachmentsPath == Some(getPath(userDataPath))
      && r.store.boundRoot == Some(getPath(userDataPath))
      && r.store.disk == st.disk
  {
    if Initialized(st) then
      Step(Failure(AlreadyInitialized), st)
    else if userDataPath == "" || JsLength(userDataPath) <= 10 then
      Step(Failure(InvalidUserDataPath), st)
    else
      var root := getPath(userDataPath);
      Step(Success(()), st.(attachmentsPath := Some(root), boundRoot := Some(root)))
  }

  /** `getAttachmentPath`. */
  function GetAttachmentPath(st: Store): (r: Result<string, Error>)
    ensures r.Success? <==> Initialized(st)
    ensures r.Success? ==> Some(r.value) == st.attachmentsPath && r.value != ""
    ensures r.Failure? ==> r.error == NotInitialized
  {
    if !Initialized(st) then Failure(NotInitialized) else Success(st.attachmentsPath.value)
  }

  /** `readAttachmentData`: the contents stored under `relativePath`. */
  function ReadAttachmentData(st: Store, relativePath: string): (r: Result<seq<byte>, Error>)
    ensures !Bound(st) ==> r == Failure(NotInitialized)
    ensures Bound(st) && relativePath !in st.disk ==> r == Failure(NotFound)
    ensures r.Success? <==> Bound(st) && relativePath in st.disk
    ensures r.Success? ==> r.value == st.disk[relativePath]
  {
    if !Bound(st) then Failure(NotInitialized)
    else if relativePath in st.disk then Success(st.disk[relativePath])
    else Failure(NotFound)
  }

  /** `getAbsoluteAttachmentPath`; `absolute(root, relativePath)` stands for
      the getter `createAbsolutePathGetter(root)`. */
  function GetAbsoluteAttachmentPath(st: Store, relativePath: Option<string>, absolute: (string, string) -> string): (r: Result<string, Error>)
    ensures r.Success? <==> Bound(st)
    ensures r.Failure? ==> r.error == NotInitialized
    ensures r.Success? && relativePath.Some? ==> r.value == absolute(st.boundRoot.value, relativePath.value)
    ensures r.Success? && relativePath.None? ==> r.value == absolute(st.boundRoot.value, "")
  {
    if !Bound(st) then Failure(NotInitialized)
    else Success(absolute(st.boundRoot.value, if Present(relativePath) then relativePath.value else ""))
  }

  /** `deleteOnDisk`: removes the file if there is one; a missing file is not an error. */
  function DeleteOnDisk(st: Store, relativePath: string): (r: Step<()>)
    ensures r.result.Success? <==> Bound(st)
    ensures r.result.Failure? ==> r.result.error == NotInitialized && r.store == st
    ensures r.store.attachmentsPath == st.attachmentsPath && r.store.boundRoot == st.boundRoot
    ensures Bound(st) ==> relativePath !in r.store.disk
    ensures forall p :: p in st.disk && p != relativePath ==> p in r.store.disk && r.store.disk[p] == st.disk[p]
    ensures r.store.disk.Keys <= st.disk.Keys
  {
    if !Bound(st) then Step(Failure(NotInitialized), st)
    else Step(Success(()), st.(disk := st.disk - {relativePath}))
  }

  /** `writeNewAttachmentData`. The name the writer generates is the
      parameter `name`; that it is fresh is an assumption of the lemmas below. */
  function WriteNewAttachmentData(st: Store, bytes: seq<byte>, name: string): (r: Step<string>)
    ensures r.result.Success? <==> Bound(st)
    ensures r.result.Failure? ==> r.result.error == NotInitialized && r.store == st
    ensures r.store.attachmentsPath == st.attachmentsPath && r.store.boundRoot == st.boundRoot
    ensures r.result.Success? ==> r.result.value == name && name in r.store.disk && r.store.disk[name] == bytes
    ensures r.result.Success? ==> r.store.disk.Keys == st.disk.Keys + {name}
    ensures r.result.Success? ==> forall p :: p in st.disk && p != name ==> r.store.disk[p] == st.disk[p]
  {
    if !Bound(st) then Step(Failure(NotInitialized), st)
    else Step(Success(name), st.(disk := st.disk[name := bytes]))
  }

  /** A second initialisation fails whatever its argument, and the root of
      the first one stays in effect. */
  lemma InitializeOnlyOnce(st: Store, first: string, second: string, getPath: string -> string)
    requires getPath(first) != ""
    requires InitializeAttachmentLogic(st, first, getPath).result.Success?
    ensures var st1 := InitializeAttachmentLogic(st, first, getPath).store;
      && InitializeAttachmentLogic(st1, second, getPath) == Step(Failure(AlreadyInitialized), st1)
      && GetAttachmentPath(st1) == Success(getPath(first))
  {
  }

  /** Before initialisation every operation fails with `NotInitialized`. */
  lemma OperationsFailBeforeInitialization(disk: Disk, rel: string, abs: Option<string>,
                                           bytes: seq<byte>, name: string, absolute: (string, string) -> string)
    ensures GetAttachmentPath(Startup(disk)) == Failure(NotInitialized)
    ensures ReadAttachmentData(Startup(disk), rel) == Failure(NotInitialized)
    ensures GetAbsoluteAttachmentPath(Startup(disk), abs, absolute) == Failure(NotInitialized)
    ensures DeleteOnDisk(Startup(disk), rel) == Step(Failure(NotInitialized), Startup(disk))
    ensures WriteNewAttachmentData(Startup(disk), bytes, name) == Step(Failure(NotInitialized), Startup(disk))
  {
  }

  /** The length guard counts UTF-16 code units: four characters outside the
      Basic Multilingual Plane after a three-character prefix make eleven
      units, so the directory is accepted although it has seven characters. */
  lemma LengthGuardCountsCodeUnits(disk: Disk, getPath: string -> string)
    ensures |"/h/\U{1F600}\U{1F600}\U{1F600}\U{1F600}"| == 7
    ensures InitializeAttachmentLogic(Startup(disk), "/h/\U{1F600}\U{1F600}\U{1F600}\U{1F600}", getPath).result.Success?
  {
  }

  /** After a successful initialisation every operation delegates to the
      root derived from the user-data directory. */
  lemma OperationsDelegateAfterInitialization(disk: Disk, userDataPath: string, getPath: string -> string,
                                              rel: string, abs: Option<string>, absolute: (string, string) -> string,
                                              bytes: seq<byte>, name: string)
    requires JsLength(userDataPath) > 10
    ensures var st := InitializeAttachmentLogic(Startup(disk), userDataPath, getPath).store;
      && Bound(st)
      && GetAbsoluteAttachmentPath(st, abs, absolute).Success?
      && GetAbsoluteAttachmentPath(st, abs, absolute).value == absolute(getPath(userDataPath), ValueOr(abs, ""))
      && (ReadAttachmentData(st, rel).Success? <==> rel in disk)
      && (rel in disk ==> ReadAttachmentData(st, rel).value == disk[rel])
      && DeleteOnDisk(st, rel).result.Success?
      && DeleteOnDisk(st, rel).store.disk == disk - {rel}
      && WriteNewAttachmentData(st, bytes, name).result == Success(name)
      && WriteNewAttachmentData(st, bytes, name).store.disk == disk[name := bytes]
  {
  }

  /** An absent relative path and the empty one resolve alike. */
  lemma AbsolutePathOfAbsentIsOfEmpty(st: Store, absolute: (string, string) -> string)
    ensures GetAbsoluteAttachmentPath(st, None, absolute) == GetAbsoluteAttachmentPath(st, Some(""), absolute)
  {
  }

  /** Reading back what was just written gives the same bytes; with a fresh
      name no other file changes. */
  lemma WriteThenRead(st: Store, bytes: seq<byte>, name: string)
    requires Bound(st)
    requires name !in st.disk
    ensures var w := WriteNewAttachmentData(st, bytes, name);
      && w.result == Success(name)
      && ReadAttachmentData(w.store, name) == Success(bytes)
      && (forall p :: p in st.disk ==> ReadAttachmentData(w.store, p) == ReadAttachmentData(st, p))
  {
  }

  /** Deleting is idempotent: a second delete of the same path succeeds and
      changes nothing, and so does deleting a path that holds no file. */
  lemma DeleteIsIdempotent(st: Store, rel: string)
    requires Bound(st)
    ensures var once := DeleteOnDisk(st, rel);
      DeleteOnDisk(once.store, rel) == Step(Success(()), once.store)
    ensures rel !in st.disk ==> DeleteOnDisk(st, rel) == Step(Success(()), st)
  {
    assert rel !in st.disk ==> st.disk - {rel} == st.disk;
    var once := DeleteOnDisk(st, rel);
    assert once.store.disk - {rel} == once.store.disk;
  }
}

=== FILE: cleanup.dfy ===
/** Cascading deletion: which files a message or a conversation owns, in the
    order the source asks for them to be deleted, and what running those
    requests against the store does. */
module Cleanup {
  import opened Util
  import opened Records
  import opened BlobStore

  /** The field a delete request comes from. */
  datatype Source =
    | DirectAttachment
    | QuoteThumbnail
    | ContactAvatarImage
    | PreviewImage
    | ConversationAvatar
    | ConversationProfileAvatar

  /** The order in which the source visits the fields. */
  function Rank(s: Source): nat {
    match s
    case DirectAttachment => 0
    case QuoteThumbnail => 1
    case ContactAvatarImage => 2
    case PreviewImage => 3
    case ConversationAvatar => 4
    case ConversationProfileAvatar => 5
  }

  /** A direct attachment is handed whole to `deleteData`; every other file
      is deleted by relative path through `deleteOnDisk`. */
  datatype Target =
    | AttachmentData(attachment: Attachment)
    | OnDisk(path: string)

  /** A delete request, labelled with the field and list position it comes from. */
  datatype DeleteRequest = DeleteRequest(source: Source, index: nat, target: Target)

  /** `a` is asked for strictly before `b`: an earlier field, or the same
      field at an earlier position. */
  predicate Before(a: DeleteRequest, b: DeleteRequest) {
    Rank(a.source) < Rank(b.source) || (a.source == b.source && a.index < b.index)
  }

  predicate InSourceOrder(rs: seq<DeleteRequest>) {
    forall k, l :: 0 <= k < l < |rs| ==> Before(rs[k], rs[l])
  }

  // ---------------------------------------------------------------------
  // Which entries own a file

  /** The quote-thumbnail rule: a thumbnail with a non-empty path is owned by
      the quoting message unless it was `copied` from the quoted message. */
  predicate DeletableThumbnail(t: Attachment) {
    Present(t.path) && t.copied != Some(true)
  }

  function DirectTarget(a: Attachment): Option<Target> {
    Some(AttachmentData(a))
  }

  function ThumbnailTarget(qa: QuotedAttachment): Option<Target> {
    match qa.thumbnail
    case Some(t) => if DeletableThumbnail(t) then Some(OnDisk(t.path.value)) else None
    case None => None
  }

  function ContactTarget(c: Contact): Option<Target> {
    match c.avatar
    case Some(ContactAvatar(_, Some(img))) => if Present(img.path) then Some(OnDisk(img.path.value)) else None
    case _ => None
  }

  function PreviewTarget(p: Preview): Option<Target> {
    match p.image
    case Some(img) => if Present(img.path) then Some(OnDisk(img.path.value)) else None
    case None => None
  }

  /** The requests for `xs[i..]`, one for each entry `pick` selects, in list order. */
  function CollectFrom<T>(source: Source, xs: seq<T>, pick: T -> Option<Target>, i: nat): (r: seq<DeleteRequest>)
    requires i <= |xs|
    decreases |xs| - i
    ensures forall q :: q in r ==> q.source == source && i <= q.index < |xs| && pick(xs[q.index]) == Some(q.target)
    ensures forall j :: i <= j < |xs| && pick(xs[j]).Some? ==> DeleteRequest(source, j, pick(xs[j]).value) in r
    ensures forall k, l :: 0 <= k < l < |r| ==> r[k].index < r[l].index
  {
    if i == |xs| then []
    else
      var rest := CollectFrom(source, xs, pick, i + 1);
      match pick(xs[i])
      case None => rest
      case Some(t) => [DeleteRequest(source, i, t)] + rest
  }

  function Collect<T>(source: Source, xs: seq<T>, pick: T -> Option<Target>): seq<DeleteRequest> {
    CollectFrom(source, xs, pick, 0)
  }

  // ---------------------------------------------------------------------
  // deleteExternalMessageFiles: the four batches

  function DirectRequests(m: Message): seq<DeleteRequest> {
    Collect(DirectAttachment, Elements(m.attachments), DirectTarget)
  }

  function ThumbnailRequests(m: Message): seq<DeleteRequest> {
    Collect(QuoteThumbnail, QuotedAttachments(m), ThumbnailTarget)
  }

  function ContactRequests(m: Message): seq<DeleteRequest> {
    Collect(ContactAvatarImage, Elements(m.contact), ContactTarget)
  }

  function PreviewRequests(m: Message): seq<DeleteRequest> {
    Collect(PreviewImage, Elements(m.preview), PreviewTarget)
  }

  /** The batches of `deleteExternalMessageFiles`, one per field, each
      awaited (through `Promise.all`) before the next is started. */
  function MessageBatches(m: Message): seq<seq<DeleteRequest>> {
    [DirectRequests(m), ThumbnailRequests(m), ContactRequests(m), PreviewRequests(m)]
  }

  /** Reference definition of what a message owns, by field and position. */
  ghost predicate OwnedByMessage(m: Message, q: DeleteRequest) {
    match q.source
    case DirectAttachment =>
      q.index < |Elements(m.attachments)| && q.target == AttachmentData(Elements(m.attachments)[q.index])
    case QuoteThumbnail =>
      && q.index < |QuotedAttachments(m)|
      && QuotedAttachments(m)[q.index].thumbnail.Some?
      && DeletableThumbnail(QuotedAttachments(m)[q.index].thumbnail.value)
      && q.target == OnDisk(QuotedAttachments(m)[q.index].thumbnail.value.path.value)
    case ContactAvatarImage =>
      && q.index < |Elements(m.contact)|
      && Elements(m.contact)[q.index].avatar.Some?
      && Elements(m.contact)[q.index].avatar.value.avatar.Some?
      && Present(Elements(m.contact)[q.index].avatar.value.avatar.value.path)
      && q.target == OnDisk(Elements(m.contact)[q.index].avatar.value.avatar.value.path.value)
    case PreviewImage =>
      && q.index < |Elements(m.preview)|
      && Elements(m.preview)[q.index].image.Some?
      && Present(Elements(m.preview)[q.index].image.value.path)
      && q.target == OnDisk(Elements(m.preview)[q.index].image.value.path.value)
    case _ => false
  }

  /** Concatenation of a list of batches. */
  function Flatten(batches: seq<seq<DeleteRequest>>): (r: seq<DeleteRequest>)
    ensures |batches| == 0 ==> r == []
  {
    if batches == [] then [] else batches[0] + Flatten(batches[1..])
  }

  /** A batch of one field lists its requests in strictly increasing position. */
  lemma CollectInOrder<T>(source: Source, xs: seq<T>, pick: T -> Option<Target>)
    ensures InSourceOrder(Collect(source, xs, pick))
  {
    var r := Collect(source, xs, pick);
    forall k, l | 0 <= k < l < |r|
      ensures Before(r[k], r[l])
    {
      assert r[k] in r && r[l] in r;
    }
  }

  /** Two ordered runs, each request of the first before each of the second,
      make an ordered run. */
  lemma ConcatInOrder(a: seq<DeleteRequest>, b: seq<DeleteRequest>)
    requires InSourceOrder(a) && InSourceOrder(b)
    requires forall x, y :: x in a && y in b ==> Rank(x.source) < Rank(y.source)
    ensures InSourceOrder(a + b)
  {
    var r := a + b;
    forall k, l | 0 <= k < l < |r|
      ensures Before(r[k], r[l])
    {
      if l < |a| {
        assert r[k] == a[k] && r[l] == a[l];
      } else if k >= |a| {
        assert r[k] == b[k - |a|] && r[l] == b[l - |a|];
      } else {
        assert r[k] == a[k] && r[l] == b[l - |a|];
        assert r[k] in a && r[l] in b;
      }
    }
  }

  /** The entries a field's batch names are those its selector picks. */
  lemma CollectMembership<T>(source: Source, xs: seq<T>, pick: T -> Option<Target>, q: DeleteRequest)
    ensures q in Collect(source, xs, pick) <==>
      q.source == source && q.index < |xs| && pick(xs[q.index]) == Some(q.target)
  {
    if q.source == source && q.index < |xs| && pick(xs[q.index]) == Some(q.target) {
      assert DeleteRequest(source, q.index, pick(xs[q.index]).value) == q;
    }
  }

  lemma DirectMembership(m: Message, q: DeleteRequest)
    ensures q in DirectRequests(m) <==> q.source == DirectAttachment && OwnedByMessage(m, q)
  {
    CollectMembership(DirectAttachment, Elements(m.attachments), DirectTarget, q);
  }

  lemma ThumbnailMembership(m: Message, q: DeleteRequest)
    ensures q in ThumbnailRequests(m) <==> q.source == QuoteThumbnail && OwnedByMessage(m, q)
  {
    CollectMembership(QuoteThumbnail, QuotedAttachments(m), ThumbnailTarget, q);
  }

  lemma ContactMembership(m: Message, q: DeleteRequest)
    ensures q in ContactRequests(m) <==> q.source == ContactAvatarImage && OwnedByMessage(m, q)
  {
    CollectMembership(ContactAvatarImage, Elements(m.contact), ContactTarget, q);
  }

  lemma PreviewMembership(m: Message, q: DeleteRequest)
    ensures q in PreviewRequests(m) <==> q.source == PreviewImage && OwnedByMessage(m, q)
  {
    CollectMembership(PreviewImage, Elements(m.preview), PreviewTarget, q);
  }

  /** Membership in the message's request list agrees with the reference
      definition of ownership. */
  lemma MessageMembership(m: Message, q: DeleteRequest)
    ensures q in DirectRequests(m) + ThumbnailRequests(m) + ContactRequests(m) + PreviewRequests(m)
        <==> OwnedByMessage(m, q)
  {
    DirectMembership(m, q);
    ThumbnailMembership(m, q);
    ContactMembership(m, q);
    PreviewMembership(m, q);
    assert OwnedByMessage(m, q) ==> q.source in {DirectAttachment, QuoteThumbnail, ContactAvatarImage, PreviewImage};
  }

  /** The four batches, one after the other, are in source order. */
  lemma MessageRequestsInOrder(m: Message)
    ensures InSourceOrder(DirectRequests(m) + ThumbnailRequests(m) + ContactRequests(m) + PreviewRequests(m))
  {
    var a, b, c, d := DirectRequests(m), ThumbnailRequests(m), ContactRequests(m), PreviewRequests(m);
    CollectInOrder(DirectAttachment, Elements(m.attachments), DirectTarget);
    CollectInOrder(QuoteThumbnail, QuotedAttachments(m), ThumbnailTarget);
    CollectInOrder(ContactAvatarImage, Elements(m.contact), ContactTarget);
    CollectInOrder(PreviewImage, Elements(m.preview), PreviewTarget);
    ConcatInOrder(a, b);
    ConcatInOrder(a + b, c);
    ConcatInOrder(a + b + c, d);
  }

  /** Everything `deleteExternalMessageFiles` asks to delete, in the order it asks. */
  function MessageDeleteRequests(m: Message): (r: seq<DeleteRequest>)
    ensures InSourceOrder(r)
    ensures forall q :: q in r <==> OwnedByMessage(m, q)
  {
    MessageRequestsInOrder(m);
    forall q ensures q in DirectRequests(m) + ThumbnailRequests(m) + ContactRequests(m) + PreviewRequests(m)
        <==> OwnedByMessage(m, q) {
      MessageMembership(m, q);
    }
    DirectRequests(m) + ThumbnailRequests(m) + ContactRequests(m) + PreviewRequests(m)
  }

  /** `Before` is a strict order: no two requests come before each other. */
  lemma BeforeIsAsymmetric(a: DeleteRequest, b: DeleteRequest)
    ensures !(Before(a, b) && Before(b, a))
  {
  }

  /** A list of requests in source order is determined by its entries. */
  lemma {:induction false} OrderedRequestsAreDeterminedByEntries(a: seq<DeleteRequest>, b: seq<DeleteRequest>)
    requires InSourceOrder(a) && InSourceOrder(b)
    requires forall q :: q in a <==> q in b
    ensures a == b
    decreases |a|
  {
    // The first entry of a non-empty list is one of its entries; with the
    // second requires this rules out one list empty and the other not.
    assert b != [] ==> b[0] in b;
    if a != [] {
      assert a[0] in a;
      assert b != [] && b[0] in b;
      var j :| 0 <= j < |b| && b[j] == a[0];
      var i :| 0 <= i < |a| && a[i] == b[0];
      if i > 0 && j > 0 {
        assert Before(a[0], a[i]);
        assert Before(b[0], b[j]);
        BeforeIsAsymmetric(a[0], b[0]);
        assert false;
      }
      assert a[0] == b[0];
      forall q
        ensures q in a[1..] <==> q in b[1..]
      {
        if q in a[1..] {
          var k :| 1 <= k < |a| && a[k] == q;
          assert Before(a[0], a[k]);
          assert q in b && q != b[0];
        }
        if q in b[1..] {
          var k :| 1 <= k < |b| && b[k] == q;
          assert Before(b[0], b[k]);
          assert q in a && q != a[0];
        }
      }
      OrderedRequestsAreDeterminedByEntries(a[1..], b[1..]);
      assert a == [a[0]] + a[1..] && b == [b[0]] + b[1..];
    }
  }

  /** The delete requests of a message are exactly, and in this order, its
      direct attachments, its owned quote thumbnails, its contact avatar
      images and its preview images: any ordered list naming just the owned
      files is the one `deleteExternalMessageFiles` produces. */
  lemma MessageDeleteRequestsAreExactly(m: Message, rs: seq<DeleteRequest>)
    requires InSourceOrder(rs)
    requires forall q :: q in rs <==> OwnedByMessage(m, q)
    ensures rs == MessageDeleteRequests(m)
  {
    OrderedRequestsAreDeterminedByEntries(rs, MessageDeleteRequests(m));
  }

  /** Removing the thumbnail of the `i`-th quoted attachment. */
  function WithoutThumbnail(m: Message, i: nat): (m': Message)
    requires i < |QuotedAttachments(m)|
    ensures |QuotedAttachments(m')| == |QuotedAttachments(m)|
    ensures QuotedAttachments(m')[i].thumbnail.None?
    ensures forall j :: 0 <= j < |QuotedAttachments(m)| && j != i ==> QuotedAttachments(m')[j] == QuotedAttachments(m)[j]
  {
    var q := m.quote.value;
    var qs := q.attachments.value;
    m.(quote := Some(q.(attachments := Some(qs[i := qs[i].(thumbnail := None)]))))
  }

  /** The anti-spoofing rule: a quote thumbnail marked `copied` takes no part
      in the cleanup at all; the message deletes exactly what it would delete
      if that thumbnail were not there. */
  lemma CopiedThumbnailIsIgnored(m: Message, i: nat)
    requires i < |QuotedAttachments(m)|
    requires QuotedAttachments(m)[i].thumbnail.Some?
    requires QuotedAttachments(m)[i].thumbnail.value.copied == Some(true)
    ensures MessageDeleteRequests(m) == MessageDeleteRequests(WithoutThumbnail(m, i))
  {
    var m' := WithoutThumbnail(m, i);
    forall q
      ensures q in MessageDeleteRequests(m) <==> q in MessageDeleteRequests(m')
    {
      assert OwnedByMessage(m, q) <==> OwnedByMessage(m', q);
    }
    OrderedRequestsAreDeterminedByEntries(MessageDeleteRequests(m), MessageDeleteRequests(m'));
  }

  // ---------------------------------------------------------------------
  // deleteExternalFilesOfConversation

  /** A one-request batch for an avatar field with a non-empty path. */
  function AvatarBatch(source: Source, a: Option<Avatar>): seq<seq<DeleteRequest>> {
    if a.Some? && Present(a.value.path) then [[DeleteRequest(source, 0, OnDisk(a.value.path.value))]] else []
  }

  /** The batches of `deleteExternalFilesOfConversation`: each delete is
      awaited on its own, the avatar before the profile avatar. */
  function ConversationBatches(c: Option<Conversation>): seq<seq<DeleteRequest>> {
    match c
    case None => []
    case Some(conv) =>
      AvatarBatch(ConversationAvatar, conv.avatar) + AvatarBatch(ConversationProfileAvatar, conv.profileAvatar)
  }

  /** Reference definition of what a conversation owns. */
  ghost predicate OwnedByConversation(c: Option<Conversation>, q: DeleteRequest) {
    && c.Some?
    && q.index == 0
    && match q.source
       case ConversationAvatar =>
         c.value.avatar.Some? && Present(c.value.avatar.value.path) && q.target == OnDisk(c.value.avatar.value.path.value)
       case ConversationProfileAvatar =>
         c.value.profileAvatar.Some? && Present(c.value.profileAvatar.value.path)
         && q.target == OnDisk(c.value.profileAvatar.value.path.value)
       case _ => false
  }

  /** Everything `deleteExternalFilesOfConversation` asks to delete, in
      order: the concatenation of the batches it runs. */
  function ConversationDeleteRequests(c: Option<Conversation>): (r: seq<DeleteRequest>)
    ensures |r| <= 2
    ensures c.None? ==> r == []
    ensures InSourceOrder(r)
    ensures forall q :: q in r <==> OwnedByConversation(c, q)
    ensures Flatten(ConversationBatches(c)) == r
  {
    var b := ConversationBatches(c);
    assert |b| <= 2;
    if |b| == 0 then []
    else if |b| == 1 then
      assert b[1..] == [];
      b[0]
    else
      assert b[1..][1..] == [];
      b[0] + b[1]
  }

  // ---------------------------------------------------------------------
  // Running the requests against the store

  /** The paths a request removes. `dataPaths(a)` lists the files the opaque
      `deleteData` removes, in order, for the direct attachment `a`. */
  function RequestPaths(q: DeleteRequest, dataPaths: Attachment -> seq<string>): set<string> {
    match q.target
    case OnDisk(p) => {p}
    case AttachmentData(a) => set p | p in dataPaths(a)
  }

  /** The paths a list of requests removes. */
  function TouchedPaths(rs: seq<DeleteRequest>, dataPaths: Attachment -> seq<string>): (r: set<string>)
    ensures forall q :: q in rs ==> RequestPaths(q, dataPaths) <= r
  {
    if rs == [] then {} else RequestPaths(rs[0], dataPaths) + TouchedPaths(rs[1..], dataPaths)
  }

  lemma {:induction false} TouchedPathsOfConcat(a: seq<DeleteRequest>, b: seq<DeleteRequest>, dataPaths: Attachment -> seq<string>)
    ensures TouchedPaths(a + b, dataPaths) == TouchedPaths(a, dataPaths) + TouchedPaths(b, dataPaths)
    decreases |a|
  {
    if a == [] {
      assert a + b == b;
    } else {
      assert (a + b)[1..] == a[1..] + b;
      TouchedPathsOfConcat(a[1..], b, dataPaths);
    }
  }

  /** `deleteData` for one attachment: its files deleted one after the
      other, stopping at the first failure. */
  function DeletePaths(st: Store, ps: seq<string>): (r: Step<()>)
    ensures Bound(st) ==> r.result.Success? && r.store == st.(disk := st.disk - (set p | p in ps))
    ensures !Bound(st) ==> r.store == st && (r.result.Failure? <==> ps != [])
    ensures r.result.Failure? ==> r.result.error == NotInitialized
    decreases |ps|
  {
    if ps == [] then
      assert (set p | p in ps) == {};
      assert st.disk - {} == st.disk;
      Step(Success(()), st)
    else
      var first := DeleteOnDisk(st, ps[0]);
      if first.result.Failure? then first
      else
        var rest := DeletePaths(first.store, ps[1..]);
        assert (set p | p in ps) == {ps[0]} + (set p | p in ps[1..]);
        assert st.disk - {ps[0]} - (set p | p in ps[1..]) == st.disk - (set p | p in ps);
        rest
  }

  /** One request: `deleteOnDisk` for a path, `deleteData` for a direct attachment. */
  function RunRequest(st: Store, q: DeleteRequest, dataPaths: Attachment -> seq<string>): (r: Step<()>)
    ensures Bound(st) ==> r.result.Success? && r.store == st.(disk := st.disk - RequestPaths(q, dataPaths))
    ensures !Bound(st) ==> r.store == st && (r.result.Failure? <==> RequestPaths(q, dataPaths) != {})
    ensures r.result.Failure? ==> r.result.error == NotInitialized
  {
    match q.target
    case OnDisk(p) => DeleteOnDisk(st, p)
    case AttachmentData(a) =>
      assert dataPaths(a) != [] ==> dataPaths(a)[0] in RequestPaths(q, dataPaths);
      DeletePaths(st, dataPaths(a))
  }

  /** One `Promise.all` batch: every request is started; the batch fails if
      any of them fails. */
  function RunBatch(st: Store, batch: seq<DeleteRequest>, dataPaths: Attachment -> seq<string>): (r: Step<()>)
    ensures Bound(st) ==> r.result.Success? && r.store == st.(disk := st.disk - TouchedPaths(batch, dataPaths))
    ensures !Bound(st) ==> r.store == st && (r.result.Failure? <==> TouchedPaths(batch, dataPaths) != {})
    ensures r.result.Failure? ==> r.result.error == NotInitialized
    decreases |batch|
  {
    if batch == [] then
      assert st.disk - {} == st.disk;
      Step(Success(()), st)
    else
      var first := RunRequest(st, batch[0], dataPaths);
      var rest := RunBatch(first.store, batch[1..], dataPaths);
      assert st.disk - RequestPaths(batch[0], dataPaths) - TouchedPaths(batch[1..], dataPaths)
          == st.disk - TouchedPaths(batch, dataPaths);
      Step(if first.result.Failure? then first.result else rest.result, rest.store)
  }

  /** The outcome of a sequence of batches: how many were started, the
      result, and the store afterwards. */
  datatype Run = Run(batchesRun: nat, result: Result<(), Error>, store: Store)

  /** Removing two sets of files one after the other removes their union. */
  lemma RemoveTwice(d: Disk, a: set<string>, b: set<string>)
    ensures d - a - b == d - (a + b)
  {
  }

  /** Batches awaited one after the other: a failing batch ends the run, and
      the batches after it are never started. */
  function RunPlan(st: Store, plan: seq<seq<DeleteRequest>>, dataPaths: Attachment -> seq<string>): (r: Run)
    ensures r.batchesRun <= |plan|
    ensures r.result.Success? ==> r.batchesRun == |plan|
    ensures r.result.Failure? ==>
      && !Bound(st) && r.result.error == NotInitialized && r.batchesRun >= 1
      && TouchedPaths(plan[r.batchesRun - 1], dataPaths) != {}
    ensures !Bound(st) ==> forall j :: 0 <= j < r.batchesRun - 1 ==> TouchedPaths(plan[j], dataPaths) == {}
    ensures !Bound(st) ==> r.store == st
    decreases |plan|
  {
    if plan == [] then Run(0, Success(()), st)
    else
      var b := RunBatch(st, plan[0], dataPaths);
      if b.result.Failure? then Run(1, b.result, b.store)
      else
        var rest := RunPlan(b.store, plan[1..], dataPaths);
        Run(rest.batchesRun + 1, rest.result, rest.store)
  }

  /** On an initialised store every batch runs and exactly the files the
      requests name are removed. */
  lemma {:induction false} RunPlanInitialized(st: Store, plan: seq<seq<DeleteRequest>>, dataPaths: Attachment -> seq<string>)
    requires Bound(st)
    ensures RunPlan(st, plan, dataPaths).result.Success?
    ensures RunPlan(st, plan, dataPaths).store == st.(disk := st.disk - TouchedPaths(Flatten(plan), dataPaths))
    decreases |plan|
  {
    if plan == [] {
      assert st.disk - {} == st.disk;
    } else {
      var b := RunBatch(st, plan[0], dataPaths);
      RunPlanInitialized(b.store, plan[1..], dataPaths);
      TouchedPathsOfConcat(plan[0], Flatten(plan[1..]), dataPaths);
      RemoveTwice(st.disk, TouchedPaths(plan[0], dataPaths), TouchedPaths(Flatten(plan[1..]), dataPaths));
    }
  }

  /** On an uninitialised store the run fails exactly when some request names
      a path to delete. */
  lemma {:induction false} RunPlanUninitialized(st: Store, plan: seq<seq<DeleteRequest>>, dataPaths: Attachment -> seq<string>)
    requires !Bound(st)
    ensures RunPlan(st, plan, dataPaths).result.Failure? <==> TouchedPaths(Flatten(plan), dataPaths) != {}
    decreases |plan|
  {
    if plan != [] {
      RunPlanUninitialized(st, plan[1..], dataPaths);
      TouchedPathsOfConcat(plan[0], Flatten(plan[1..]), dataPaths);
    }
  }

  // ---------------------------------------------------------------------
  // The two entry points

  lemma FlattenFour(a: seq<DeleteRequest>, b: seq<DeleteRequest>, c: seq<DeleteRequest>, d: seq<DeleteRequest>)
    ensures Flatten([a, b, c, d]) == a + b + c + d
  {
    var plan := [a, b, c, d];
    assert plan[1..][1..][1..][1..] == [];
    assert Flatten(plan[1..][1..][1..]) == d;
    assert Flatten(plan[1..][1..]) == c + d;
    assert Flatten(plan[1..]) == b + c + d;
  }

  lemma FlattenMessageBatches(m: Message)
    ensures Flatten(MessageBatches(m)) == MessageDeleteRequests(m)
  {
    FlattenFour(DirectRequests(m), ThumbnailRequests(m), ContactRequests(m), PreviewRequests(m));
  }

  /** A run whose first batch fails stops after it. */
  lemma FirstBatchFailureStopsPlan(st: Store, plan: seq<seq<DeleteRequest>>, dataPaths: Attachment -> seq<string>)
    requires plan != []
    requires RunBatch(st, plan[0], dataPaths).result.Failure?
    ensures RunPlan(st, plan, dataPaths).result.Failure?
    ensures RunPlan(st, plan, dataPaths).batchesRun == 1
  {
  }

  /** `deleteExternalMessageFiles`. Initialised, it removes exactly the
      files its requests name and nothing else; uninitialised, it changes
      nothing, and it fails as soon as a batch names a path to delete. */
  function DeleteExternalMessageFiles(st: Store, m: Message, dataPaths: Attachment -> seq<string>): (r: Run)
    ensures r.batchesRun <= 4
    ensures r.store.attachmentsPath == st.attachmentsPath && r.store.boundRoot == st.boundRoot
    ensures Bound(st) ==> r.result.Success? && r.batchesRun == 4
    ensures Bound(st) ==> r.store.disk == st.disk - TouchedPaths(MessageDeleteRequests(m), dataPaths)
    ensures !Bound(st) ==> r.store == st
    ensures !Bound(st) ==> (r.result.Failure? <==> TouchedPaths(MessageDeleteRequests(m), dataPaths) != {})
  {
    FlattenMessageBatches(m);
    if Bound(st) then
      RunPlanInitialized(st, MessageBatches(m), dataPaths);
      RunPlan(st, MessageBatches(m), dataPaths)
    else
      RunPlanUninitialized(st, MessageBatches(m), dataPaths);
      RunPlan(st, MessageBatches(m), dataPaths)
  }

  /** The categories are not isolated from each other: when deleting a direct
      attachment's files fails, the quote, contact and preview files are never
      attempted. */
  lemma DirectAttachmentFailureStopsCleanup(st: Store, m: Message, dataPaths: Attachment -> seq<string>)
    requires !Bound(st)
    requires TouchedPaths(DirectRequests(m), dataPaths) != {}
    ensures DeleteExternalMessageFiles(st, m, dataPaths).result == Failure(NotInitialized)
    ensures DeleteExternalMessageFiles(st, m, dataPaths).batchesRun == 1
  {
    FirstBatchFailureStopsPlan(st, MessageBatches(m), dataPaths);
  }

  /** A quote thumbnail with a non-empty path that is not marked `copied` is
      gone after the cleanup of an initialised store. */
  lemma OwnedThumbnailIsDeleted(st: Store, m: Message, dataPaths: Attachment -> seq<string>, i: nat)
    requires Bound(st)
    requires i < |QuotedAttachments(m)|
    requires QuotedAttachments(m)[i].thumbnail.Some?
    requires Present(QuotedAttachments(m)[i].thumbnail.value.path)
    requires QuotedAttachments(m)[i].thumbnail.value.copied != Some(true)
    ensures QuotedAttachments(m)[i].thumbnail.value.path.value !in DeleteExternalMessageFiles(st, m, dataPaths).store.disk
  {
    var p := QuotedAttachments(m)[i].thumbnail.value.path.value;
    var q := DeleteRequest(QuoteThumbnail, i, OnDisk(p));
    assert OwnedByMessage(m, q);
    assert p in RequestPaths(q, dataPaths);
  }

  /** The paths of an avatar field that are truthy. */
  function AvatarPath(a: Option<Avatar>): set<string> {
    if a.Some? && Present(a.value.path) then {a.value.path.value} else {}
  }

  /** The `deleteData` of a plan without direct attachments is never called. */
  function NoDataFiles(a: Attachment): seq<string> {
    []
  }

  lemma ConversationTouchedPaths(c: Conversation)
    ensures TouchedPaths(Flatten(ConversationBatches(Some(c))), NoDataFiles)
         == AvatarPath(c.avatar) + AvatarPath(c.profileAvatar)
  {
    var a := AvatarBatch(ConversationAvatar, c.avatar);
    var b := AvatarBatch(ConversationProfileAvatar, c.profileAvatar);
    var plan := a + b;
    if a != [] && b != [] {
      assert plan[1..][1..] == [];
      assert Flatten(plan) == a[0] + b[0];
      TouchedPathsOfConcat(a[0], b[0], NoDataFiles);
    } else if a != [] {
      assert plan[1..] == [];
      assert Flatten(plan) == a[0] + [];
    } else if b != [] {
      assert plan[1..] == [];
      assert Flatten(plan) == b[0] + [];
    }
  }

  /** With the store uninitialised, deleting the avatar's file is the first
      batch of the conversation cleanup, and it fails. */
  lemma ConversationAvatarFirst(st: Store, c: Conversation)
    ensures !Bound(st) && AvatarPath(c.avatar) != {} ==>
      RunBatch(st, ConversationBatches(Some(c))[0], NoDataFiles).result.Failure?
  {
    ConversationTouchedPaths(c);
    var a := AvatarBatch(ConversationAvatar, c.avatar);
    if a != [] {
      var plan := ConversationBatches(Some(c));
      assert plan[0] == a[0];
      assert RequestPaths(a[0][0], NoDataFiles) == AvatarPath(c.avatar);
      assert TouchedPaths(a[0][1..], NoDataFiles) == {};
    }
  }

  /** `deleteExternalFilesOfConversation`. An absent conversation is a no-op;
      initialised, exactly the avatar and profile-avatar files are removed;
      uninitialised, nothing changes and the call fails when a request names a
      path to delete, before the profile avatar is attempted if the avatar is. */
  function DeleteExternalFilesOfConversation(st: Store, c: Option<Conversation>): (r: Run)
    ensures c.None? ==> r == Run(0, Success(()), st)
    ensures r.store.attachmentsPath == st.attachmentsPath && r.store.boundRoot == st.boundRoot
    ensures c.Some? && Bound(st) ==> r.result.Success?
    ensures Bound(st) ==> r.store.disk == st.disk - TouchedPaths(ConversationDeleteRequests(c), NoDataFiles)
    ensures c.Some? && Bound(st) ==> r.store.disk == st.disk - (AvatarPath(c.value.avatar) + AvatarPath(c.value.profileAvatar))
    ensures !Bound(st) ==> r.store == st
    ensures c.Some? && !Bound(st) ==>
      (r.result.Failure? <==> AvatarPath(c.value.avatar) + AvatarPath(c.value.profileAvatar) != {})
    ensures c.Some? && !Bound(st) && AvatarPath(c.value.avatar) != {} ==> r.batchesRun == 1
  {
    if c.Some? then
      ConversationTouchedPaths(c.value);
      ConversationAvatarFirst(st, c.value);
      if Bound(st) then
        RunPlanInitialized(st, ConversationBatches(c), NoDataFiles);
        RunPlan(st, ConversationBatches(c), NoDataFiles)
      else
        RunPlanUninitialized(st, ConversationBatches(c), NoDataFiles);
        RunPlan(st, ConversationBatches(c), NoDataFiles)
    else
      assert st.disk - {} == st.disk;
      Run(0, Success(()), st)
  }
}

=== FILE: loaders.dfy ===
/** Read-side hydration of previews and quotes. When the first element of
    either list is non-empty, only that element is kept and hydrated. `load` stands for `loadAttachmentData`
    (the opaque `loadData`), which returns the attachment with its contents
    read back into memory. */
module Loaders {
  import opened Util
  import opened Records

  /** `loadPreviewData`. */
  function LoadPreviewData(preview: Option<seq<Preview>>, load: Attachment -> Attachment): (r: seq<Preview>)
    ensures |r| <= 1
    ensures r == [] <==> preview.None? || |preview.value| == 0 || IsEmptyPreview(preview.value[0])
    ensures |r| == 1 ==> r[0].url == preview.value[0].url && r[0].title == preview.value[0].title
    ensures |r| == 1 && preview.value[0].image.None? ==> r[0] == preview.value[0]
    ensures |r| == 1 && preview.value[0].image.Some? ==>
      r[0] == preview.value[0].(image := Some(load(preview.value[0].image.value)))
  {
    if preview.None? || |preview.value| == 0 || IsEmptyPreview(preview.value[0]) then []
    else
      var first := preview.value[0];
      if first.image.None? then [first]
      else [first.(image := Some(load(first.image.value)))]
  }

  /** Previews after the first never influence the result. */
  lemma {:induction false} LoadPreviewDataReadsOnlyTheFirst(p: Preview, rest: seq<Preview>, load: Attachment -> Attachment)
    ensures LoadPreviewData(Some([p] + rest), load) == LoadPreviewData(Some([p]), load)
  {
    assert ([p] + rest)[0] == p;
  }

  /** The hydrated first entry of a quote: its thumbnail loaded when the
      thumbnail has a non-empty path, unchanged otherwise. */
  function HydrateQuotedAttachment(a: QuotedAttachment, load: Attachment -> Attachment): (r: QuotedAttachment)
    ensures r.contentType == a.contentType && r.fileName == a.fileName
    ensures a.thumbnail.Some? && Present(a.thumbnail.value.path) ==> r.thumbnail == Some(load(a.thumbnail.value))
    ensures !(a.thumbnail.Some? && Present(a.thumbnail.value.path)) ==> r == a
  {
    match a.thumbnail
    case Some(t) => if Present(t.path) then a.(thumbnail := Some(load(t))) else a
    case None => a
  }

  /** `loadQuoteData`: an absent quote gives `null` (here `None`). */
  function LoadQuoteData(quote: Option<Quote>, load: Attachment -> Attachment): (r: Option<Quote>)
    ensures r.Some? <==> quote.Some?
    ensures r.Some? ==> r.value.(attachments := quote.value.attachments) == quote.value
    ensures quote.Some? && (|Elements(quote.value.attachments)| == 0 || IsEmptyQuotedAttachment(quote.value.attachments.value[0]))
      ==> r == quote
    ensures quote.Some? && |Elements(quote.value.attachments)| > 0 && !IsEmptyQuotedAttachment(quote.value.attachments.value[0])
      ==> r.value.attachments == Some([HydrateQuotedAttachment(quote.value.attachments.value[0], load)])
  {
    match quote
    case None => None
    case Some(q) =>
      if q.attachments.None? || |q.attachments.value| == 0 || IsEmptyQuotedAttachment(q.attachments.value[0]) then quote
      else
        var first := q.attachments.value[0];
        match first.thumbnail
        case Some(t) =>
          if Present(t.path) then Some(q.(attachments := Some([first.(thumbnail := Some(load(t)))])))
          else Some(q.(attachments := Some([first])))
        case None => Some(q.(attachments := Some([first])))
  }

  /** Quoted attachments after a non-empty first one never influence the result. */
  lemma {:induction false} LoadQuoteDataReadsOnlyTheFirst(q: Quote, a: QuotedAttachment, rest: seq<QuotedAttachment>,
                                                          load: Attachment -> Attachment)
    requires !IsEmptyQuotedAttachment(a)
    ensures LoadQuoteData(Some(q.(attachments := Some([a] + rest))), load)
         == LoadQuoteData(Some(q.(attachments := Some([a]))), load)
  {
    assert ([a] + rest)[0] == a;
  }
}

=== FILE: migration.dfy ===
/** Moving an attachment's inline data into the store: the validation of
    `migrateDataToFileSystem` and the record rewriting of
    `processNewAttachment`. The collaborators `replaceUnicodeV2`,
    `autoOrientJPEGAttachment` and `captureDimensionsAndScreenshot` are
    function parameters; the capture step is modelled as returning only the
    fields it fills in. */
module Migration {
  import opened Util
  import opened Records
  import opened BlobStore

  /** What `autoOrientJPEGAttachment` returns: the (possibly re-encoded)
      data (`None` when `undefined`, `NotBuffer` for `null` or any other
      non-buffer value), and whether the digest computed for the old bytes
      is stale. */
  datatype Oriented = Oriented(data: Option<Payload>, shouldDeleteDigest: bool)

  /** What `captureDimensionsAndScreenshot` adds to a path-backed attachment. */
  datatype Dimensions = Dimensions(width: Option<int>, height: Option<int>, screenshotPath: Option<string>)

  /** `migrateDataToFileSystem`: only a genuine buffer reaches the writer;
      `name` is the fresh name the writer generates. `None` is `undefined`
      data, the missing-data error; `null` fails `isUndefined` and so is a
      `NotBuffer` value, the type error. */
  function MigrateDataToFileSystem(st: Store, data: Option<Payload>, name: string): (r: Step<string>)
    ensures data.None? ==> r == Step(Failure(MissingData), st)
    ensures data.Some? && data.value.NotBuffer? ==> r == Step(Failure(NotArrayBuffer), st)
    ensures r.result.Success? ==> data.Some? && data.value.Buffer? && Bound(st) && r.result.value == name
    ensures r.result.Success? ==> r.store == st.(disk := st.disk[name := data.value.bytes])
    ensures data.Some? && data.value.Buffer? && !Bound(st) ==> r == Step(Failure(NotInitialized), st)
  {
    match data
    case None => Step(Failure(MissingData), st)
    case Some(NotBuffer(_)) => Step(Failure(NotArrayBuffer), st)
    case Some(Buffer(bytes)) => WriteNewAttachmentData(st, bytes, name)
  }

  /** A successful migration stores the bytes under the returned path, where
      a read finds them again; with a fresh name no other file changes. */
  lemma MigrateThenRead(st: Store, bytes: seq<byte>, name: string)
    requires Bound(st)
    requires name !in st.disk
    ensures var m := MigrateDataToFileSystem(st, Some(Buffer(bytes)), name);
      && m.result == Success(name)
      && ReadAttachmentData(m.store, name) == Success(bytes)
      && (forall p :: p in st.disk ==> ReadAttachmentData(m.store, p) == ReadAttachmentData(st, p))
  {
    WriteThenRead(st, bytes, name);
  }

  /** The file name `processNewAttachment` gives the result. */
  function NormalizedFileName(a: Attachment, replaceUnicode: string -> string): string {
    if Present(a.fileName) then replaceUnicode(a.fileName.value) else ""
  }

  /** `processNewAttachment`. */
  function ProcessNewAttachment(st: Store, a: Attachment, name: string, replaceUnicode: string -> string,
                                orient: Attachment -> Oriented, capture: Attachment -> Dimensions): (r: Step<Attachment>)
    ensures orient(a).data.None? ==> r == Step(Failure(MissingData), st)
    ensures orient(a).data.Some? && orient(a).data.value.NotBuffer? ==> r == Step(Failure(NotArrayBuffer), st)
    ensures r.result.Failure? ==> r.store == st
    ensures r.result.Success? <==> orient(a).data.Some? && orient(a).data.value.Buffer? && Bound(st)
    ensures r.result.Success? ==> r.store.disk == st.disk[name := orient(a).data.value.bytes]
    ensures r.result.Success? ==> r.result.value.data.None? && r.result.value.path == Some(name)
    ensures r.result.Success? && Present(a.fileName) ==> r.result.value.fileName == Some(replaceUnicode(a.fileName.value))
    ensures r.result.Success? && !Present(a.fileName) ==> r.result.value.fileName == Some("")
    ensures r.result.Success? ==> r.result.value.size == Some(|orient(a).data.value.bytes|)
    ensures r.result.Success? ==>
      (r.result.value.digest.None? <==> orient(a).shouldDeleteDigest || a.digest.None?)
    ensures r.result.Success? && r.result.value.digest.Some? ==> r.result.value.digest == a.digest
    ensures r.result.Success? ==>
      r.result.value.contentType == a.contentType && r.result.value.isRaw == a.isRaw && r.result.value.copied == a.copied
    ensures r.result.Success? ==>
      var dims := capture(a.(fileName := Some(NormalizedFileName(a, replaceUnicode)), path := Some(name), data := None,
                             digest := if orient(a).shouldDeleteDigest then None else a.digest));
      && r.result.value.width == dims.width
      && r.result.value.height == dims.height
      && r.result.value.screenshotPath == dims.screenshotPath
  {
    var fileName := NormalizedFileName(a, replaceUnicode);
    var rotated := orient(a);
    var migrated := MigrateDataToFileSystem(st, rotated.data, name);
    if migrated.result.Failure? then Step(Failure(migrated.result.error), migrated.store)
    else
      var withoutData := a.(fileName := Some(fileName), path := Some(migrated.result.value), data := None);
      var checked := if rotated.shouldDeleteDigest then withoutData.(digest := None) else withoutData;
      var dims := capture(checked);
      var final := checked.(width := dims.width, height := dims.height, screenshotPath := dims.screenshotPath);
      Step(Success(final.(fileName := Some(fileName), size := Some(|rotated.data.value.bytes|))), migrated.store)
  }

  /** The processed attachment points at a file that holds the re-oriented
      bytes, and, with a fresh name, no earlier file changed. */
  lemma ProcessedAttachmentReadsBack(st: Store, a: Attachment, name: string, replaceUnicode: string -> string,
                                     orient: Attachment -> Oriented, capture: Attachment -> Dimensions)
    requires name !in st.disk
    requires ProcessNewAttachment(st, a, name, replaceUnicode, orient, capture).result.Success?
    ensures var r := ProcessNewAttachment(st, a, name, replaceUnicode, orient, capture);
      && ReadAttachmentData(r.store, r.result.value.path.value) == Success(orient(a).data.value.bytes)
      && (forall p :: p in st.disk ==> ReadAttachmentData(r.store, p) == ReadAttachmentData(st, p))
  {
    MigrateThenRead(st, orient(a).data.value.bytes, name);
  }
}

=== FILE: records.dfy ===
/** The records the attachment-lifecycle code receives from the message store.
    The source types them as `any`; every field it reads is modelled here as
    an `Option`, so that "absent", "empty" and "falsy" are explicit. */
module Records {
  import opened Util

  /** What an attachment's `data` field may hold at run time when it is not
      `undefined`: a genuine `ArrayBuffer`, or any other JavaScript value,
      `null` included (a string, a plain object, `null`, ...), which the
      migration step rejects with its type error. */
  datatype Payload =
    | Buffer(bytes: seq<byte>)
    | NotBuffer(description: string)

  /** An attachment record. `data == None` means `data` is `undefined`;
      a `null` data is `Some(NotBuffer(..))`. Also used for a quote's thumbnail (which may carry
      `copied`), a contact card's embedded avatar image and a preview image. */
  datatype Attachment = Attachment(
    fileName: Option<string>,
    contentType: Option<string>,
    path: Option<string>,
    data: Option<Payload>,
    digest: Option<string>,
    size: Option<int>,
    width: Option<int>,
    height: Option<int>,
    screenshotPath: Option<string>,
    isRaw: Option<bool>,
    copied: Option<bool>)

  /** One entry of a quote's `attachments` list. */
  datatype QuotedAttachment = QuotedAttachment(
    contentType: Option<string>,
    fileName: Option<string>,
    thumbnail: Option<Attachment>)

  /** The quote carried by a message. */
  datatype Quote = Quote(
    id: Option<int>,
    author: Option<string>,
    text: Option<string>,
    attachments: Option<seq<QuotedAttachment>>)

  /** The `avatar` field of a shared contact: its own `avatar` is the image. */
  datatype ContactAvatar = ContactAvatar(
    isProfile: Option<bool>,
    avatar: Option<Attachment>)

  /** A shared contact card. */
  datatype Contact = Contact(
    name: Option<string>,
    avatar: Option<ContactAvatar>)

  /** A link preview. */
  datatype Preview = Preview(
    url: Option<string>,
    title: Option<string>,
    image: Option<Attachment>)

  /** The four fields of a message that may own files on disk. */
  datatype Message = Message(
    attachments: Option<seq<Attachment>>,
    quote: Option<Quote>,
    contact: Option<seq<Contact>>,
    preview: Option<seq<Preview>>)

  /** A conversation's avatar descriptor. */
  datatype Avatar = Avatar(
    path: Option<string>,
    hash: Option<string>)

  /** The two fields of a conversation that may own files on disk. */
  datatype Conversation = Conversation(
    avatar: Option<Avatar>,
    profileAvatar: Option<Avatar>)

  /** lodash `isEmpty` on a preview object: it has no own field set. */
  predicate IsEmptyPreview(p: Preview) {
    p.url.None? && p.title.None? && p.image.None?
  }

  /** lodash `isEmpty` on a quoted-attachment object. */
  predicate IsEmptyQuotedAttachment(a: QuotedAttachment) {
    a.contentType.None? && a.fileName.None? && a.thumbnail.None?
  }

  /** The elements of an optional list; an absent list has none. */
  function Elements<T>(xs: Option<seq<T>>): seq<T> {
    ValueOr(xs, [])
  }

  /** The quote's attachment list; an absent quote or list gives none. */
  function QuotedAttachments(m: Message): seq<QuotedAttachment> {
    match m.quote
    case None => []
    case Some(q) => Elements(q.attachments)
  }
}

=== FILE: util.dfy ===
/** Small value types shared by every module of the attachment-lifecycle model:
    optional values, results with an error, bytes, and the JavaScript
    truthiness test on an optional string. */
module Util {

  /** An optional record field. `None` is a field left `undefined`. A field
      the code only tests for truthiness treats `null` the same way; where
      the code tells `null` from `undefined` (an attachment's `data`), `null`
      is a present value of the field's own type. */
  datatype Option<+T> = None | Some(value: T)

  /** `o`'s value when it has one, `fallback` otherwise (JavaScript's `o || fallback`
      on a field that is never falsy when present). */
  function ValueOr<T>(o: Option<T>, fallback: T): T {
    if o.Some? then o.value else fallback
  }

  /** The outcome of an operation that may throw. */
  datatype Result<+T, +E> = Success(value: T) | Failure(error: E)

  /** An octet of an `ArrayBuffer`. */
  newtype byte = x: int | 0 <= x < 256

  /** JavaScript's `length` of a string: its count of UTF-16 code units, so a
      character outside the Basic Multilingual Plane counts twice. */
  function JsLength(s: string): (n: nat)
    ensures |s| <= n <= 2 * |s|
    ensures n == |s| <==> forall i :: 0 <= i < |s| ==> s[i] as int < 0x1_0000
  {
    if s == [] then 0
    else (if s[0] as int >= 0x1_0000 then 2 else 1) + JsLength(s[1..])
  }

  /** JavaScript truthiness of an optional string: present and not `''`. */
  predicate Present(s: Option<string>) {
    s.Some? && |s.value| > 0
  }
}
